=== FILE: README.md ===
# Hotel reservations (viesbuciai) in Dafny

A model of the business core of the `viesbuciai` Django application. Users
register and fill in a profile. They then browse and filter hotels and reserve
stays against a prepaid balance. Administrators add and delete hotels, set
user balances, and edit an order's status and its admin details.

The database is one immutable `Store` record. It holds users, profiles,
balances, hotels, orders and admin details as maps keyed by primary key,
plus the auto-increment counters. Every view is a pure function from a store
and the request's cleaned inputs to an `Outcome`:

- `Applied(value)`: the request completed and the value carries the new store.
- `Refused(why)`: a silent redirect or a re-rendered form. Nothing is written.
- `Crashed(fault)`: an exception the view does not catch, such as a
  `DoesNotExist` from `objects.get`. Nothing is written.

The balance form can fail after it has written, so it returns its own reply
type, which carries the store in both cases. Money is an integer number of
cents and dates are integer day numbers. "Today" is a parameter.

Modules, one per part of the source:

- `Outcomes`: result types.
- `Text`: ASCII case folding and the email normalisation of Django's user model.
- `Models`: the records, enumerations, `clean` hooks, `Order.save` and the
  store invariant `Valid`.
- `Forms`: the registration checks and the edit forms' whitelists.
- `Totals`: sums over a table, the money in the ledger and the rooms in the catalog.
- `Ledger`: lazy balance creation and the balance form.
- `Reservation`: `create_order`.
- `Catalog`: main page, hotel list, filter, add and delete hotel.
- `AdminDesk`: `edit_order`.
- `Accounts`: registration and profile editing.

`Valid` is the invariant every modelled request preserves. It says the following:

- keys lie below their counters;
- every user has a profile;
- balances belong to users and are non-negative;
- every order links its own admin details row;
- every hotel an order references exists.

The lemmas that establish it are:

- `Ledger.GetOrCreatePreservesValid` and `Ledger.SetBalancePreservesValid`;
- `Reservation.PlacedOrderTotals`;
- `Catalog.PageVisitsSettle`, `Catalog.DeleteHotelPreservesValid` and `Catalog.AddedHotelWithinBounds`;
- `AdminDesk.EditOrderPreservesValid`;
- `Accounts.RegisterCheckingPreservesValid` (both registration variants), `Accounts.RegisterPreservesValid` and `Accounts.EditProfilePreservesValid`.

The filter page returns the store unchanged (`Catalog.HotelFilterPage`). Refusals and faults write nothing.

Points where the code behaves differently from what its docstrings and its
intended workflow suggest. The model follows the code, except for the two
defects under "## Findings": there the rest of the model uses the corrected
definition, and the code as written is modelled beside it.

- `create_order` does not check that the profile is complete (`Reservation.NoAvailabilityFloorNorProfileGate`).
- `create_order` does not create a missing balance. A missing balance, hotel or
  profile is an uncaught `DoesNotExist`, not a redirect. The same holds for
  `delete_hotel` and `edit_order` lookups.
- The order status field is declared `blank=True`. `EditOrderForm` therefore also
  accepts the empty code, so a stored status is one of `u`, `r`, `p` or empty (`Status.Unset`).
  The same applies to the hotel type (`HotelType.Untyped`).
- `Hotel.stars` declares the default `'s'`, which is not one of its choices `'1'`..`'5'`.
  A hotel form that leaves `stars` out keeps that default, and the model
  field check then rejects it, so the form is refused (`Catalog.OmittedFieldsTakeDefaults`).
  A form that leaves `type` out keeps the default `'s'`, a valid type.
- `Hotel.clean` runs even when the price or availability field failed. Such a
  value is then unset (`None`), and the comparison with 0 raises `TypeError`
  (`Catalog.AddHotel`).
- An order edit that leaves the `status` key out keeps the stored status,
  because the field has a model default (`Forms.ApplyEditOrderForm`).
- A balance form posted without an `amount` field raises `TypeError` after the
  lazily created zero balance was saved (`Ledger.SetBalance`).

## Model

| member | source | states |
|---|---|---|
| `Models.ParseStatus` | mysite/viesbuciai/models.py:117-129 | A submitted status code that is accepted denotes the status whose code it is |
| `Models.EnumCodesRoundTrip` | mysite/viesbuciai/models.py:48-129 | Parsing inverts printing for order status and hotel type; the accepted codes are exactly the choices plus blank |
| `Models.HotelClean` | mysite/viesbuciai/models.py:94-99 | A hotel passes iff price and availability are non-negative; a negative price is the error even when availability is also negative |
| `Models.AdminDetailsClean` | mysite/viesbuciai/models.py:156-161 | Details pass iff room and floor are non-negative; the room error takes precedence |
| `Models.Placeholder` | mysite/viesbuciai/models.py:135-137 | The automatic details have room 0, floor 0, the note "Laukiama patvirtinimo" and the order's client |
| `Models.SaveOrder` | mysite/viesbuciai/models.py:133-138 | After a save the order has admin details; a new placeholder row is created only when none was linked, under a fresh key; no other order and no other table changes |
| `Models.SaveOrderIdempotent` | mysite/viesbuciai/models.py:135-138 | The re-save after attaching the placeholder writes nothing new |
| `Models.SaveOrderPreservesValid` | mysite/viesbuciai/models.py:131-138 | Saving a new order, or re-saving a stored one, keeps every order linked to its own distinct details row |
| `Forms.MatchPassword` | mysite/viesbuciai/forms.py:51 | The scan accepts exactly the strings `re.match` accepts with the password pattern, including Python's `$` before one final newline, with ASCII digits for `\d` |
| `Forms.CleanPassword2` | mysite/viesbuciai/forms.py:46-54 | A mismatch is refused before the pattern is checked; acceptance iff confirmed and matching; the accepted value is the one submitted; a missing first password is a KeyError |
| `Forms.PasswordAcceptedIff` | mysite/viesbuciai/forms.py:48-53 | On stripped input a password is accepted iff confirmed, of length at least 8, only ASCII letters and digits, with a lowercase, an uppercase and a digit |
| `Forms.CleanEmail` | mysite/viesbuciai/forms.py:40-44 | Refused iff some existing user has the address; otherwise returned unchanged |
| `Forms.ApplyAdminDetailsForm` | mysite/viesbuciai/forms.py:99-101 | Valid iff room and floor are given and non-negative and the note has 1 to 20 characters; only those three fields change, the client is kept |
| `Forms.ApplyEditOrderForm` | mysite/viesbuciai/forms.py:88-90 | Valid iff the code is omitted or is a status choice or blank; a posted code becomes the status, an omitted one keeps the stored status; nothing but the status changes |
| `Forms.ApplyProfileForm` | mysite/viesbuciai/forms.py:15-19 | Valid iff a birth date is given and the texts fit the model's lengths; the saved profile is complete iff the five text fields are non-empty |
| `Ledger.GetOrCreateBalance` | mysite/viesbuciai/views.py:86-90 | Afterwards the user has a balance; an existing one is returned untouched, a missing one is created as 0; other balances and tables are kept |
| `Ledger.GetOrCreateIdempotent` | mysite/viesbuciai/views.py:134-141 | Looking up or creating twice equals once |
| `Ledger.GetOrCreatePreservesValid` | mysite/viesbuciai/views.py:357-362 | Creating a balance for an existing user keeps the store valid and the money in the ledger unchanged |
| `Ledger.AsWrittenGuardAdmitsNonNumbers` | mysite/viesbuciai/views.py:372-374 | The guard `not amount < 0` admits NaN and infinity, which the intended guard rejects |
| `Ledger.GuardsAgreeOnNumbers` | mysite/viesbuciai/views.py:373 | On finite amounts the intended guard agrees with the written one; it only admits non-negative amounts |
| `Ledger.SetBalance` | mysite/viesbuciai/views.py:347-381 | A missing user is an error; otherwise the balance exists afterwards, equals an amount the corrected guard admits, or else the previous or lazily created 0; a missing amount fails with exactly the lazy creation written; nothing else changes |
| `Ledger.SetBalanceAsWritten` | mysite/viesbuciai/views.py:367-377 | With the guard as written, a non-number is saved as the balance exactly when the user exists and the parsed amount is NaN or positive infinity |
| `Ledger.AsWrittenStoresNonNumbers` | mysite/viesbuciai/views.py:368-374 | Posting `inf` or `nan` for an existing user saves that value as written, where the corrected view keeps the balance it found |
| `Ledger.AsWrittenAgreesOnNumbers` | mysite/viesbuciai/views.py:372-377 | On every request that does not carry NaN or positive infinity, the view as written and the corrected view reply alike |
| `Ledger.SetBalanceIgnoresPrevious` | mysite/viesbuciai/views.py:373-375 | The form overwrites: with an admitted amount the previous balance does not influence the result |
| `Ledger.SetBalancePreservesValid` | mysite/viesbuciai/views.py:367-377 | Balances stay non-negative and the ledger's total moves by exactly the one balance's change |
| `Reservation.CreateOrder` | mysite/viesbuciai/views.py:193-235 | Form, stale-date, each missing-row fault (balance, hotel, profile), empty-stay and funds outcomes hold iff their condition holds, in the source's order of checks; a placed order gets the next key |
| `Reservation.PlacedOrderDelta` | mysite/viesbuciai/views.py:204-227 | On success the balance drops by exactly nights times price, the hotel loses exactly one room, and one order is added with the submitted dates, the hotel, the user as client, status `u` and fresh placeholder details; the order and details counters advance by one; nothing else changes |
| `Reservation.PlacedOrderTotals` | mysite/viesbuciai/views.py:216-227 | On success the store stays valid, the ledger loses exactly the cost, the catalog exactly one room, and exactly one order and one details row are added |
| `Reservation.ThreeNightsExceedBalance` | mysite/viesbuciai/views.py:216-231 | 3 nights at 100.00 against 250.00 are refused for insufficient balance |
| `Reservation.TwoNightsLeaveFifty` | mysite/viesbuciai/views.py:216-229 | 2 nights at 100.00 from 250.00 leave 50.00, one room fewer and an order with status `u` |
| `Reservation.NoAvailabilityFloorNorProfileGate` | mysite/viesbuciai/views.py:223-226 | A booking at zero availability succeeds, leaves -1, and needs no complete profile |
| `Models.Complete` | mysite/viesbuciai/views.py:94-95 | A profile is complete iff all six fields are filled in (the same test at lines 117-118 and 311-312); the empty profile a new user gets is not complete |
| `Catalog.MainPage` | mysite/viesbuciai/views.py:76-104 | Anonymous visitors go to login; the index is shown iff the profile is complete, with the looked-up-or-created balance; an incomplete profile is redirected to the profile form after the balance was looked up or created |
| `Catalog.HotelsPage` | mysite/viesbuciai/views.py:108-148 | The listing of all hotels is shown iff the profile is complete; an incomplete profile is redirected with nothing written |
| `Catalog.PageVisitsSettle` | mysite/viesbuciai/views.py:82-144 | A second visit to the index or the hotel list renders the same page and writes nothing; the store stays valid and the shown balance is non-negative |
| `Catalog.FilterHotels` | mysite/viesbuciai/views.py:314-324 | The name, stars and quantity filters, each applied only when given, select a subset of the catalog |
| `Catalog.IEqualsIffSameLowered` | mysite/viesbuciai/views.py:317-318 | The case-insensitive name match is equality after lowering ASCII letters |
| `Catalog.FilterIsIntersection` | mysite/viesbuciai/views.py:314-324 | The chained filters give a subset of the hotels: exactly those meeting every given criterion, and all hotels when none is given |
| `Catalog.HotelFilterPage` | mysite/viesbuciai/views.py:303-343 | A complete profile sees exactly the matching hotels and its balance, or 0 when none exists, with nothing written; text as quantity is an error |
| `Catalog.DeleteHotel` | mysite/viesbuciai/views.py:429-436 | A missing hotel is an error; the hotel is removed iff no order references it; otherwise nothing changes |
| `Catalog.DeleteHotelPreservesValid` | mysite/viesbuciai/views.py:431-436 | Deletion leaves no order with a dangling hotel reference, and the catalog loses exactly that hotel's rooms |
| `Catalog.AddHotel` | mysite/viesbuciai/views.py:409-416 | An unset price, or an unset availability after a non-negative price, raises in `Hotel.clean`; otherwise a hotel is stored under the next key iff the form, including `Hotel.clean` and the quantity bound, validates |
| `Catalog.OmittedFieldsTakeDefaults` | mysite/viesbuciai/models.py:63-79 | A form without `stars` is always refused, since its default is no choice; a form without `type` stores the default type |
| `Catalog.AddedHotelWithinBounds` | mysite/viesbuciai/models.py:84-99 | A hotel entered through the form has non-negative price and availability and at most 4 guests |
| `AdminDesk.EditOrder` | mysite/viesbuciai/views.py:286-294 | A missing order or details row is an error; the edit is applied iff both forms validate, otherwise nothing is saved |
| `AdminDesk.EditOrderChangesOnlyWhitelist` | mysite/viesbuciai/forms.py:88-101 | An accepted edit changes only the order's status and the room, floor and note of its own details; every other field and row is kept |
| `AdminDesk.EditOrderPreservesValid` | mysite/viesbuciai/views.py:291-294 | An accepted edit keeps the store valid |
| `Text.NormalizeEmail` | mysite/viesbuciai/views.py:45-48 | The stored address keeps its length and everything up to the last `@`, and every character after that `@` is lowered; an address without `@` is kept |
| `Text.NormalizeEmailIdempotent` | mysite/viesbuciai/views.py:45-48 | Normalising a normalised address changes nothing |
| `Text.MixedCaseDomainIsRewritten` | mysite/viesbuciai/views.py:45-48 | `a@Example.com` is stored with a lowercase domain, so it differs from the typed address |
| `Accounts.RegisterChecking` | mysite/viesbuciai/views.py:44-50 | With the uniqueness test run on a given address, an account is created iff that address is unused and the password check accepts; a missing first password is a KeyError; the new user gets the next key, the normalised email and an empty profile |
| `Accounts.RegisterAsWritten` | mysite/viesbuciai/forms.py:40-44 | As written, an account is created iff no user has the address exactly as typed and the password check accepts; the normalised address is stored |
| `Accounts.AsWrittenRegistersMixedCaseTwice` | mysite/viesbuciai/forms.py:40-44 | As written, after one account with an address whose domain has a capital, a second account under a different, unused username and with the same address and an accepted password is created, and both accounts store the same normalised address |
| `Accounts.Register` | mysite/viesbuciai/views.py:44-50 | An account is created iff no user has the normalised address and the password check accepts; the new user gets the next key and the normalised address |
| `Accounts.SecondRegistrationRefused` | mysite/viesbuciai/forms.py:40-44 | After one registration, a second whose email normalises to the same address never succeeds; with both passwords present it is refused with the uniqueness error |
| `Accounts.RegisterCheckingPreservesValid` | mysite/viesbuciai/views.py:44-50 | Registration with either uniqueness test, as written or corrected, keeps the store valid |
| `Accounts.RegisterPreservesValid` | mysite/viesbuciai/views.py:63-71 | Registration keeps the store valid, and the new user's hotel list redirects to the profile form |
| `Accounts.RegisteredEmailIsNormal` | mysite/viesbuciai/views.py:45-48 | The address a registration stores is already in normal form |
| `Accounts.EditProfile` | mysite/viesbuciai/views.py:24-28 | The user's profile is overwritten iff it exists and the form validates |
| `Accounts.EditProfilePreservesValid` | mysite/viesbuciai/views.py:24-28 | An accepted profile edit keeps the store valid and the set of profiles unchanged |
| `Accounts.EditedProfileOpensHotels` | mysite/viesbuciai/views.py:117-118 | After an accepted edit the hotel list opens iff the five text fields were filled in; other profiles are untouched |

## Left out

- Authentication: `login_required`, the redirect of authenticated users away from registration, and the missing admin-role checks. Users are passed in as authenticated ids.
- Template rendering, redirect targets, pagination and URL routing. A page is the `Page` value it would render.
- The GET branches of `create_order`, `edit_order` and `delete_hotel`. They write nothing. `create_order`'s GET redirects to the hotel list. `delete_hotel`'s GET renders the confirmation page. `edit_order`'s GET renders the two forms, but only after the same two `objects.get` lookups as its POST, so it can fail on a missing order or details row just as `AdminDesk.EditOrder` does.
- `make_reservation`, `order_confirmation`, `my_orders`, `orders` and `all_users_view`. They only read and render.
- Floating-point money and `round(balance, 2)`. Money is integer cents and rounding only affects display.
- Parsing the text of `amount`, the dates and `quantity`. Inputs arrive already parsed: `Unparsable`, `None` and `NotANumber` stand for text that does not parse.
- Forms.CleanPassword2: treats only '0'..'9' as digits, while Python's `\d` also matches other Unicode digits.
- Forms.MatchPassword: the same; its `\d` is '0'..'9' only.
- Text.NormalizeEmail: lowercases ASCII letters only, while Python's `str.lower` folds all of Unicode. Django's `BaseUserManager.normalize_email`, which the user model's `clean` calls, is not part of this model's source.
- Ledger.SetBalance: applies the corrected guard, which admits only a finite, non-negative amount (see "## Findings"). The view as written is `Ledger.SetBalanceAsWritten`.
- Ledger.SetBalanceAsWritten: records that a NaN or infinity was saved, without modelling what the database does with it; that depends on the backend.
- Accounts.Register: runs the uniqueness test on the normalised address (see "## Findings"). The view as written is `Accounts.RegisterAsWritten`.
- Catalog.HotelFilterPage: matches names case-insensitively for ASCII letters only; Unicode case folding depends on the database.
- Accounts.Register: does not check the username (required, allowed characters, unique) or that the email is present and well formed. The username checks come from the authentication framework's `User` model, run by the form's model validation; the email checks come from the form's own `EmailField(required=True)` (mysite/viesbuciai/forms.py:32). The model takes both as already valid.
- Accounts.RegisterChecking: the same; its "created iff" omits the username and email-format checks.
- Accounts.RegisterAsWritten: the same; its "created iff" omits the username and email-format checks.
- Catalog.AddHotel: the hotel type arrives as an already parsed choice; an unknown type code is a form error like any other.
- Catalog.HotelsPage: the listing is a set of hotel keys. The ordering by id and the page size of 2 are presentation.
- Password hashing (`set_password`).
- Range validators of integer columns and length limits the database enforces.
- A hotel whose price is null.
- Several balances for one user (the foreign key is not unique). The ledger holds at most one balance per user.
- The unguarded read-check-write on balance and availability across concurrent requests. The model is sequential.
- `on_delete` cascades. No modelled request deletes a profile or an order, and a hotel is only deleted when unreferenced.

## Findings

| source | as written | input that shows it | evidently intended | confidence | as-written member | corrected member |
|---|---|---|---|---|---|---|
| mysite/viesbuciai/views.py:368-374 | `amount = float(...)` followed by `if not amount < 0` stores any amount that is not below zero | `amount` = `nan` (or `inf`): `float` parses it, `nan < 0` is false, and the balance becomes NaN (or infinity) | only a finite, non-negative amount overwrites the balance | high for the Python semantics; not executed | `Ledger.AsWrittenStoresNonNumbers` | `Ledger.SetBalancePreservesValid` |
| mysite/viesbuciai/forms.py:40-44 | `clean_email` looks the address up exactly as typed; the user's `full_clean` then stores it with the domain lowercased by Django's `normalize_email` | registering `a@Example.com` twice under two different usernames: the first account stores `a@example.com`, the exact lookup of `a@Example.com` finds nothing, and a second account with the same address is created | one account per address as stored | high on a case-sensitive collation, such as the defaults of SQLite and PostgreSQL; not executed | `Accounts.AsWrittenRegistersMixedCaseTwice` | `Accounts.SecondRegistrationRefused` |

`Ledger.SetBalance` uses the corrected guard `Ledger.AmountGuard`, which
admits only a finite, non-negative amount. `Ledger.SetBalancePreservesValid`
proves that under this guard every balance stays a non-negative number of
cents.

`Accounts.Register` runs the uniqueness test on the address that is stored.
`Accounts.SecondRegistrationRefused` proves that a second account whose
address normalises to a registered one is refused.

=== FILE: accounts.dfy ===
/** Registration and profile editing (mysite/viesbuciai/views.py: register,
    profile, and the post_save signal that gives each new user a profile). */
module Accounts {
  import opened Outcomes
  import opened Models
  import opened Forms
  import opened Catalog
  import opened Text

  datatype RegistrationForm = RegistrationForm(
    username: string,
    email: string,
    password: Option<string>,   // None: the field itself did not clean
    password2: Option<string>)

  datatype Registered = Registered(store: Store, user: UserId)

  /** register (the POST), with the email uniqueness test run on `probe`:
      clean_email and, when the confirmation field cleaned, clean_password2
      run in field order, and a KeyError in the latter ends the request;
      with both clean the user's full_clean normalises the address, the
      user is saved and the signal attaches an empty profile. */
  function RegisterChecking(s: Store, form: RegistrationForm, probe: string): (r: Outcome<Registered>)
    ensures r.Crashed? <==> form.password.None? && form.password2.Some?
    ensures r.Applied? <==>
              form.password2.Some? &&
              CleanEmail(probe, s.users).Applied? &&
              CleanPassword2(form.password, form.password2.value).Applied?
    ensures r.Applied? ==>
              && r.value.user == s.nextUser
              && r.value.store == s.(users := s.users[s.nextUser := User(form.username, NormalizeEmail(form.email))],
                                     profiles := s.profiles[s.nextUser := EmptyProfile],
                                     nextUser := s.nextUser + 1)
  {
    var email := CleanEmail(probe, s.users);
    if form.password2.None? then Refused(InvalidForm)
    else
      var password := CleanPassword2(form.password, form.password2.value);
      if password.Crashed? then Crashed(password.fault)
      else if email.Refused? then Refused(email.why)
      else if password.Refused? then Refused(password.why)
      else
        var u := s.nextUser;
        Applied(Registered(s.(users := s.users[u := User(form.username, NormalizeEmail(form.email))],
                              profiles := s.profiles[u := EmptyProfile],
                              nextUser := u + 1), u))
  }

  /** register as written: clean_email looks for the address exactly as
      typed, while the stored address has its domain lowercased. */
  function RegisterAsWritten(s: Store, form: RegistrationForm): (r: Outcome<Registered>)
    ensures r.Applied? <==>
              form.password2.Some? &&
              (forall u :: u in s.users ==> s.users[u].email != form.email) &&
              CleanPassword2(form.password, form.password2.value).Applied?
    ensures r.Applied? ==>
              r.value.store.users == s.users[s.nextUser := User(form.username, NormalizeEmail(form.email))]
  {
    RegisterChecking(s, form, form.email)
  }

  /** A second account, under a username nobody holds, with the same
      mixed-case address goes through as written: the first stored the
      lowercased domain, which the exact lookup of the second does not
      find, so two accounts end up with one stored address. */
  lemma AsWrittenRegistersMixedCaseTwice(s: Store, first: RegistrationForm, second: RegistrationForm)
    requires RegisterAsWritten(s, first).Applied?
    requires NormalizeEmail(first.email) != first.email
    requires second.email == first.email
    requires second.username != first.username
    requires forall u :: u in s.users ==> s.users[u].username != second.username
    requires second.password2.Some? && CleanPassword2(second.password, second.password2.value).Applied?
    ensures var one := RegisterAsWritten(s, first).value;
            && RegisterAsWritten(one.store, second).Applied?
            && var two := RegisterAsWritten(one.store, second).value;
               && two.user != one.user
               && two.store.users[one.user].email == two.store.users[two.user].email
  {
    var one := RegisterAsWritten(s, first).value;
    assert one.store.users[one.user].email == NormalizeEmail(first.email);
    assert CleanEmail(second.email, one.store.users).Applied?;
  }

  /** register with the uniqueness test on the address that is stored, so
      two accounts never share a normalised email. */
  function Register(s: Store, form: RegistrationForm): (r: Outcome<Registered>)
    ensures r.Crashed? <==> form.password.None? && form.password2.Some?
    ensures r.Applied? <==>
              form.password2.Some? &&
              (forall u :: u in s.users ==> s.users[u].email != NormalizeEmail(form.email)) &&
              CleanPassword2(form.password, form.password2.value).Applied?
    ensures r.Applied? ==>
              && r.value.user == s.nextUser
              && r.value.store.users == s.users[s.nextUser := User(form.username, NormalizeEmail(form.email))]
  {
    RegisterChecking(s, form, NormalizeEmail(form.email))
  }

  /** Registering a second account whose email normalises to one already
      registered is refused with the uniqueness error (or fails on a missing
      password) and never succeeds. */
  lemma SecondRegistrationRefused(s: Store, first: RegistrationForm, second: RegistrationForm)
    requires Register(s, first).Applied?
    requires NormalizeEmail(second.email) == NormalizeEmail(first.email)
    ensures var s' := Register(s, first).value.store;
            && !Register(s', second).Applied?
            && (second.password.Some? && second.password2.Some? ==>
                  Register(s', second) == Refused(EmailTaken))
  {
    var s' := Register(s, first).value.store;
    assert s'.users[s.nextUser].email == NormalizeEmail(second.email);
  }

  /** Registration with either uniqueness test keeps the store valid, so
      the view as written and the corrected one both preserve the invariant. */
  lemma RegisterCheckingPreservesValid(s: Store, form: RegistrationForm, probe: string)
    requires Valid(s)
    requires RegisterChecking(s, form, probe).Applied?
    ensures Valid(RegisterChecking(s, form, probe).value.store)
  {
    var reg := RegisterChecking(s, form, probe).value;
    forall o | o in reg.store.orders
      ensures Linked(reg.store, reg.store.orders[o])
    {
      assert Linked(s, s.orders[o]);
    }
  }

  /** Registration keeps the store valid, and the new user starts with an
      incomplete profile, so the hotel list sends them to the profile form. */
  lemma RegisterPreservesValid(s: Store, form: RegistrationForm)
    requires Valid(s)
    requires Register(s, form).Applied?
    ensures var reg := Register(s, form).value;
            && Valid(reg.store)
            && reg.user !in s.users
            && HotelsPage(reg.store, reg.user) == Applied(View(reg.store, ToProfile))
  {
    var reg := Register(s, form).value;
    forall o | o in reg.store.orders
      ensures Linked(reg.store, reg.store.orders[o])
    {
      assert Linked(s, s.orders[o]);
    }
  }

  /** The stored address is in normal form, so later lookups of the
      normalised address find it. */
  lemma RegisteredEmailIsNormal(s: Store, form: RegistrationForm)
    requires Register(s, form).Applied?
    ensures var reg := Register(s, form).value;
            reg.user in reg.store.users &&
            NormalizeEmail(reg.store.users[reg.user].email) == reg.store.users[reg.user].email
  {
    NormalizeEmailIdempotent(form.email);
  }

  /** profile (the POST): the form overwrites the six fields of the user's
      own profile. */
  function EditProfile(s: Store, user: UserId, form: ProfileForm): (r: Outcome<Store>)
    ensures r.Crashed? <==> user !in s.profiles
    ensures r.Applied? <==> user in s.profiles && ApplyProfileForm(form).Some?
    ensures r.Refused? ==> r.why == InvalidForm
    ensures r.Applied? ==> r.value == s.(profiles := s.profiles[user := ApplyProfileForm(form).value])
  {
    if user !in s.profiles then Crashed(MissingProfile)
    else match ApplyProfileForm(form)
      case None => Refused(InvalidForm)
      case Some(p) => Applied(s.(profiles := s.profiles[user := p]))
  }

  /** A profile edit keeps the store valid: it replaces one profile and
      adds no key. */
  lemma EditProfilePreservesValid(s: Store, user: UserId, form: ProfileForm)
    requires Valid(s)
    requires EditProfile(s, user, form).Applied?
    ensures Valid(EditProfile(s, user, form).value)
    ensures EditProfile(s, user, form).value.profiles.Keys == s.profiles.Keys
  {
    var s' := EditProfile(s, user, form).value;
    forall o | o in s'.orders
      ensures Linked(s', s'.orders[o])
    {
      assert Linked(s, s.orders[o]);
    }
  }

  /** After an accepted profile edit the hotel list opens exactly when the
      five text fields were filled in (the birth date is required by the
      form), and every other profile is untouched. */
  lemma EditedProfileOpensHotels(s: Store, user: UserId, form: ProfileForm)
    requires EditProfile(s, user, form).Applied?
    ensures var s' := EditProfile(s, user, form).value;
            && (HotelsPage(s', user).value.page.HotelList? <==>
                  form.name != "" && form.lastname != "" && form.address != "" &&
                  form.city != "" && form.country != "")
            && (forall u :: u in s.profiles && u != user ==> s'.profiles[u] == s.profiles[u])
  {
  }
}

=== FILE: admin_desk.dfy ===
/** The administrator's order editing, edit_order in
    mysite/viesbuciai/views.py: one submission carries the order's status
    and its admin details, and both are saved or neither. */
module AdminDesk {
  import opened Outcomes
  import opened Models
  import opened Forms

  /** edit_order (the POST): the order and its admin details are fetched
      (each an uncaught DoesNotExist when missing); only when both forms
      validate are the order (through Order.save) and then the details
      saved. */
  function EditOrder(s: Store, pk: OrderId, statusCode: Option<string>, form: AdminDetailsForm)
    : (r: Outcome<Store>)
    ensures r == Crashed(MissingOrder) <==> pk !in s.orders
    ensures r == Crashed(MissingAdminDetails) <==> pk in s.orders && !Resolves(s, pk)
    ensures r == Refused(InvalidForm) <==>
              Resolves(s, pk) &&
              (ApplyEditOrderForm(statusCode, s.orders[pk]).None? ||
               ApplyAdminDetailsForm(form, s.details[s.orders[pk].adminDetails.value]).None?)
    ensures r.Applied? <==>
              Resolves(s, pk) &&
              ApplyEditOrderForm(statusCode, s.orders[pk]).Some? &&
              ApplyAdminDetailsForm(form, s.details[s.orders[pk].adminDetails.value]).Some?
  {
    if pk !in s.orders then Crashed(MissingOrder)
    else if !Resolves(s, pk) then Crashed(MissingAdminDetails)
    else
      var d := s.orders[pk].adminDetails.value;
      match (ApplyEditOrderForm(statusCode, s.orders[pk]), ApplyAdminDetailsForm(form, s.details[d]))
      case (Some(o), Some(details)) =>
        var saved := SaveOrder(s, pk, o);
        Applied(saved.(details := saved.details[d := details]))
      case _ => Refused(InvalidForm)
  }

  /** The order exists and its admin details row can be found. */
  predicate Resolves(s: Store, pk: OrderId) {
    pk in s.orders && s.orders[pk].adminDetails.Some? && s.orders[pk].adminDetails.value in s.details
  }

  /** An accepted edit changes only the order's status (to the posted code,
      or not at all when none was posted) and the three whitelisted fields
      of its own admin details: the client, dates, hotel
      and details link of the order, the details' client, every other order
      and details row, and the rest of the store stay as they were. */
  lemma EditOrderChangesOnlyWhitelist(s: Store, pk: OrderId, statusCode: Option<string>, form: AdminDetailsForm)
    requires Valid(s)
    requires EditOrder(s, pk, statusCode, form).Applied?
    ensures var r := EditOrder(s, pk, statusCode, form).value;
            var o := s.orders[pk];
            var d := o.adminDetails.value;
            && r.orders == s.orders[pk := o.(status := r.orders[pk].status)]
            && (statusCode.Some? ==> StatusCode(r.orders[pk].status) == statusCode.value)
            && (statusCode.None? ==> r.orders[pk] == o)
            && r.details == s.details[d := AdminDetails(s.details[d].client, form.roomId.value,
                                          form.aukstas.value, form.ramybesValandos)]
            && r == s.(orders := r.orders, details := r.details)
  {
    assert pk < s.nextOrder;
  }

  /** An accepted edit keeps the store valid. */
  lemma EditOrderPreservesValid(s: Store, pk: OrderId, statusCode: Option<string>, form: AdminDetailsForm)
    requires Valid(s)
    requires EditOrder(s, pk, statusCode, form).Applied?
    ensures Valid(EditOrder(s, pk, statusCode, form).value)
  {
    var o := ApplyEditOrderForm(statusCode, s.orders[pk]).value;
    assert Linked(s, s.orders[pk]);
    SaveOrderPreservesValid(s, pk, o);
  }
}

=== FILE: catalog.dfy ===
/** The hotel catalog and the pages gated by a complete profile
    (mysite/viesbuciai/views.py: main_page, hotels, hotel_filter,
    add_hotel_view, delete_hotel). */
module Catalog {
  import opened Outcomes
  import opened Models
  import opened Ledger
  import opened Totals
  import opened Text

  /** What a page view renders or where it redirects. */
  datatype Page =
    | IndexPage(balance: int)
    | HotelList(hotels: set<HotelId>, balance: int)
    | FilterResults(hotels: set<HotelId>, balance: int)
    | ToProfile
    | ToLogin

  /** A rendered page together with the store after the request's writes. */
  datatype View = View(store: Store, page: Page)

  /** main_page: an anonymous visitor goes to the login page; otherwise the
      profile is fetched, the balance looked up or created, and the index is
      shown only for a complete profile. */
  function MainPage(s: Store, user: Option<UserId>): (r: Outcome<View>)
    ensures user.None? ==> r == Applied(View(s, ToLogin))
    ensures user.Some? ==> (r.Crashed? <==> user.value !in s.profiles)
    ensures r.Applied? && user.Some? ==> r.value.store == GetOrCreateBalance(s, user.value).0
    ensures r.Applied? && r.value.page.IndexPage? <==>
              user.Some? && user.value in s.profiles && Complete(s.profiles[user.value])
    ensures r.Applied? && r.value.page.IndexPage? ==>
              r.value.page.balance == r.value.store.balances[user.value]
    ensures user.Some? && user.value in s.profiles && !Complete(s.profiles[user.value]) ==>
              r == Applied(View(GetOrCreateBalance(s, user.value).0, ToProfile))
  {
    match user
    case None => Applied(View(s, ToLogin))
    case Some(u) =>
      if u !in s.profiles then Crashed(MissingProfile)
      else
        var (s1, balance) := GetOrCreateBalance(s, u);
        if Complete(s.profiles[u]) then Applied(View(s1, IndexPage(balance)))
        else Applied(View(s1, ToProfile))
  }

  /** hotels: the listing of every hotel, shown only for a complete profile;
      the balance is looked up or created only on that branch. */
  function HotelsPage(s: Store, user: UserId): (r: Outcome<View>)
    ensures r.Crashed? <==> user !in s.profiles
    ensures r.Applied? && r.value.page.HotelList? <==> user in s.profiles && Complete(s.profiles[user])
    ensures r.Applied? && !r.value.page.HotelList? ==> r.value == View(s, ToProfile)
    ensures r.Applied? && r.value.page.HotelList? ==>
              && r.value.page.hotels == s.hotels.Keys
              && r.value.store == GetOrCreateBalance(s, user).0
              && r.value.page.balance == r.value.store.balances[user]
  {
    if user !in s.profiles then Crashed(MissingProfile)
    else if Complete(s.profiles[user]) then
      var (s1, balance) := GetOrCreateBalance(s, user);
      Applied(View(s1, HotelList(s.hotels.Keys, balance)))
    else Applied(View(s, ToProfile))
  }

  /** The lazy balance creation happens at most once: a second visit to
      the main page or the hotel list renders the same page and writes
      nothing more, and the balance it shows is never negative in a valid
      store. */
  lemma PageVisitsSettle(s: Store, user: UserId)
    requires Valid(s) && user in s.users
    ensures var r := MainPage(s, Some(user));
            && r.Applied?
            && MainPage(r.value.store, Some(user)) == r
            && Valid(r.value.store)
            && (r.value.page.IndexPage? ==> r.value.page.balance >= 0)
    ensures var r := HotelsPage(s, user);
            && r.Applied?
            && HotelsPage(r.value.store, user) == r
            && Valid(r.value.store)
            && (r.value.page.HotelList? ==> r.value.page.balance >= 0)
  {
    GetOrCreatePreservesValid(s, user);
  }

  /** The quantity query parameter: absent or empty, an integer, or text
      that an integer column cannot take. */
  datatype QuantityParam = NoQuantity | Quantity(n: int) | NotANumber

  /** name__iexact, for ASCII letters. */
  predicate IEquals(a: string, b: string) {
    |a| == |b| && forall i :: 0 <= i < |a| ==> Lower(a[i]) == Lower(b[i])
  }

  /** Case-insensitive equality is equality after lowering both sides. */
  lemma IEqualsIffSameLowered(a: string, b: string)
    ensures IEquals(a, b) <==> Lowered(a) == Lowered(b)
  {
    if Lowered(a) == Lowered(b) {
      forall i | 0 <= i < |a|
        ensures Lower(a[i]) == Lower(b[i])
      {
        LoweredAt(a, i);
        LoweredAt(b, i);
      }
    }
    if IEquals(a, b) {
      forall i | 0 <= i < |a|
        ensures Lowered(a)[i] == Lowered(b)[i]
      {
        LoweredAt(a, i);
        LoweredAt(b, i);
      }
    }
  }

  /** The three narrowing steps of hotel_filter; each applies only when its
      parameter is given. */
  function ByName(ids: set<HotelId>, hotels: map<HotelId, Hotel>, name: string): set<HotelId> {
    if name == "" then ids else set h | h in ids && h in hotels && IEquals(hotels[h].name, name)
  }

  function ByStars(ids: set<HotelId>, hotels: map<HotelId, Hotel>, stars: string): set<HotelId> {
    if stars == "" then ids else set h | h in ids && h in hotels && hotels[h].stars == stars
  }

  function ByQuantity(ids: set<HotelId>, hotels: map<HotelId, Hotel>, q: QuantityParam): set<HotelId> {
    if !q.Quantity? then ids else set h | h in ids && h in hotels && hotels[h].quantity == q.n
  }

  /** The chain of filters hotel_filter applies to all hotels. */
  function FilterHotels(hotels: map<HotelId, Hotel>, name: string, stars: string, q: QuantityParam)
    : (r: set<HotelId>)
    ensures r <= hotels.Keys
  {
    ByQuantity(ByStars(ByName(hotels.Keys, hotels, name), hotels, stars), hotels, q)
  }

  /** Whether one hotel satisfies every given criterion. */
  predicate Matches(h: Hotel, name: string, stars: string, q: QuantityParam) {
    && (name == "" || IEquals(h.name, name))
    && (stars == "" || h.stars == stars)
    && (q.Quantity? ==> h.quantity == q.n)
  }

  /** The chained filters select exactly the hotels that meet every given
      criterion: the result is the intersection of the criteria, a subset of
      the catalog, and the whole catalog when no criterion is given. */
  lemma FilterIsIntersection(hotels: map<HotelId, Hotel>, name: string, stars: string, q: QuantityParam)
    ensures FilterHotels(hotels, name, stars, q) <= hotels.Keys
    ensures forall h :: h in FilterHotels(hotels, name, stars, q) <==>
                        h in hotels && Matches(hotels[h], name, stars, q)
    ensures name == "" && stars == "" && !q.Quantity? ==> FilterHotels(hotels, name, stars, q) == hotels.Keys
  {
  }

  /** hotel_filter: for a complete profile, the filtered hotels and the
      balance, shown as 0 when there is none (nothing is created). Text in
      the quantity parameter is an uncaught ValueError. */
  function HotelFilterPage(s: Store, user: UserId, name: string, stars: string, q: QuantityParam)
    : (r: Outcome<View>)
    ensures r.Crashed? <==>
              user !in s.profiles || (Complete(s.profiles[user]) && q.NotANumber?)
    ensures r.Applied? ==> r.value.store == s
    ensures r.Applied? && r.value.page.FilterResults? <==>
              user in s.profiles && Complete(s.profiles[user]) && !q.NotANumber?
    ensures r.Applied? && !r.value.page.FilterResults? ==> r.value.page == ToProfile
    ensures r.Applied? && r.value.page.FilterResults? ==>
              && (forall h :: h in r.value.page.hotels <==> h in s.hotels && Matches(s.hotels[h], name, stars, q))
              && r.value.page.balance == (if user in s.balances then s.balances[user] else 0)
  {
    if user !in s.profiles then Crashed(MissingProfile)
    else if !Complete(s.profiles[user]) then Applied(View(s, ToProfile))
    else if q.NotANumber? then Crashed(MalformedQuantity)
    else
      FilterIsIntersection(s.hotels, name, stars, q);
      var balance := if user in s.balances then s.balances[user] else 0;
      Applied(View(s, FilterResults(FilterHotels(s.hotels, name, stars, q), balance)))
  }

  /** Whether some order still references the hotel. */
  predicate Referenced(s: Store, pk: HotelId) {
    exists o :: o in s.orders && s.orders[o].hotel == Some(pk)
  }

  /** delete_hotel (the POST): a missing hotel is an uncaught DoesNotExist; a
      hotel some order references is kept; otherwise it is removed. */
  function DeleteHotel(s: Store, pk: HotelId): (r: Outcome<Store>)
    ensures r.Crashed? <==> pk !in s.hotels
    ensures r == Refused(HotelInUse) <==> pk in s.hotels && Referenced(s, pk)
    ensures r.Applied? <==> pk in s.hotels && !Referenced(s, pk)
    ensures r.Applied? ==> r.value == s.(hotels := s.hotels - {pk})
  {
    if pk !in s.hotels then Crashed(MissingHotel)
    else if Referenced(s, pk) then Refused(HotelInUse)
    else Applied(s.(hotels := s.hotels - {pk}))
  }

  /** The guard keeps every order's hotel reference resolving, and the
      catalog loses exactly the deleted hotel's rooms. */
  lemma DeleteHotelPreservesValid(s: Store, pk: HotelId)
    requires Valid(s)
    ensures var r := DeleteHotel(s, pk);
            r.Applied? ==> Valid(r.value) && RoomsLeft(r.value) == RoomsLeft(s) - s.hotels[pk].availability
  {
    var r := DeleteHotel(s, pk);
    if r.Applied? {
      forall o | o in r.value.orders
        ensures Linked(r.value, r.value.orders[o])
      {
        assert Linked(s, s.orders[o]);
        assert s.orders[o].hotel != Some(pk);
      }
      SumBelowRemove(s.hotels, Availability, s.nextHotel, pk);
    }
  }

  /** What HotelForm accepts: the required text within the model's lengths,
      a star choice or blank, the quantity bound, and Hotel.clean. */
  predicate HotelFormValid(h: Hotel) {
    && 0 < |h.name| <= 30
    && 0 < |h.description| <= 2000
    && 0 < |h.address| <= 200
    && StarsAllowed(h.stars)
    && h.quantity <= MaxQuantity
    && HotelClean(h).None?
  }

  datatype Added = Added(store: Store, hotel: HotelId)

  /** HotelForm as posted, after each field's own cleaning. `None` in the
      type or the stars means the key was left out of the request, so the
      instance keeps the model default; `None` in a number means the value
      was empty or did not parse, which leaves price and availability unset
      on the new instance and the quantity at its default. */
  datatype HotelForm = HotelForm(
    name: string,
    hotelType: Option<HotelType>,
    stars: Option<string>,
    description: string,
    address: string,
    price: Option<int>,
    quantity: Option<int>,
    availability: Option<int>)

  /** The instance the form builds once all three numbers cleaned. */
  function FormHotel(f: HotelForm): Hotel
    requires f.price.Some? && f.quantity.Some? && f.availability.Some?
  {
    Hotel(f.name,
          if f.hotelType.Some? then f.hotelType.value else DefaultHotelType,
          if f.stars.Some? then f.stars.value else DefaultStars,
          f.description, f.address, f.price.value, f.quantity.value, f.availability.value)
  }

  /** add_hotel_view (the POST). The model's clean runs even after field
      errors: with the price unset its first comparison raises, and with a
      non-negative price an unset availability makes the second one raise.
      Otherwise a valid form is saved under the next key. */
  function AddHotel(s: Store, f: HotelForm): (r: Outcome<Added>)
    ensures r.Crashed? <==> f.price.None? || (f.price.value >= 0 && f.availability.None?)
    ensures r.Crashed? ==> r.fault == NoneCompared
    ensures r.Refused? ==> r.why == InvalidForm
    ensures r.Applied? <==>
              f.price.Some? && f.quantity.Some? && f.availability.Some? &&
              HotelFormValid(FormHotel(f))
    ensures r.Applied? ==> r.value.hotel == s.nextHotel
    ensures r.Applied? ==>
              r.value.store == s.(hotels := s.hotels[s.nextHotel := FormHotel(f)],
                                  nextHotel := s.nextHotel + 1)
  {
    if f.price.None? || (f.price.value >= 0 && f.availability.None?) then Crashed(NoneCompared)
    else if f.quantity.None? || f.availability.None? then Refused(InvalidForm)
    else if HotelFormValid(FormHotel(f)) then
      Applied(Added(s.(hotels := s.hotels[s.nextHotel := FormHotel(f)], nextHotel := s.nextHotel + 1),
                    s.nextHotel))
    else Refused(InvalidForm)
  }

  /** Leaving the stars out keeps the default "s", which is not one of the
      choices, so such a form is always turned away; leaving the type out
      stores the default type. */
  lemma OmittedFieldsTakeDefaults(s: Store, f: HotelForm)
    ensures f.stars.None? ==> !AddHotel(s, f).Applied?
    ensures f.hotelType.None? && AddHotel(s, f).Applied? ==>
              AddHotel(s, f).value.store.hotels[s.nextHotel].hotelType == Standart
  {
    assert !StarsAllowed(DefaultStars);
  }

  /** A hotel entered through the form has a non-negative price and
      availability and at most four guests; the store stays valid. */
  lemma AddedHotelWithinBounds(s: Store, f: HotelForm)
    requires Valid(s)
    requires AddHotel(s, f).Applied?
    ensures var a := AddHotel(s, f).value;
            && Valid(a.store)
            && a.store.hotels[a.hotel].price >= 0
            && a.store.hotels[a.hotel].availability >= 0
            && a.store.hotels[a.hotel].quantity <= MaxQuantity
            && a.hotel !in s.hotels
  {
    var a := AddHotel(s, f).value;
    forall o | o in a.store.orders
      ensures Linked(a.store, a.store.orders[o])
    {
      assert Linked(s, s.orders[o]);
    }
  }
}

=== FILE: forms.dfy ===
/** The validation of the application's forms (mysite/viesbuciai/forms.py):
    the registration checks and the field whitelists of the edit forms.

    Form values arrive as the form fields clean them: text is stripped of
    surrounding whitespace, a date or integer that does not parse is None. */
module Forms {
  import opened Outcomes
  import opened Models

  predicate IsLower(c: char) { 'a' <= c <= 'z' }
  predicate IsUpper(c: char) { 'A' <= c <= 'Z' }
  predicate IsDigit(c: char) { '0' <= c <= '9' }
  predicate IsAlnum(c: char) { IsLower(c) || IsUpper(c) || IsDigit(c) }

  predicate IsSpace(c: char) { c in {' ', '\t', '\n', '\r', '\U{B}', '\U{C}'} }

  /** What a CharField hands over after stripping. */
  predicate Stripped(s: string) {
    |s| == 0 || (!IsSpace(s[0]) && !IsSpace(s[|s| - 1]))
  }

  /** The meaning of the body of the password pattern
      (?=.*[a-z])(?=.*[A-Z])(?=.*\d)[a-zA-Z\d]{8,}: eight or more ASCII letters
      and digits, with a lowercase letter, an uppercase letter and a digit. */
  predicate PasswordRule(p: string) {
    && |p| >= 8
    && (forall i :: 0 <= i < |p| ==> IsAlnum(p[i]))
    && (exists i :: 0 <= i < |p| && IsLower(p[i]))
    && (exists i :: 0 <= i < |p| && IsUpper(p[i]))
    && (exists i :: 0 <= i < |p| && IsDigit(p[i]))
  }

  /** re.match of ^...$: Python's $ also matches just before one final newline. */
  predicate PasswordRegexMatches(p: string) {
    PasswordRule(p) || (|p| > 0 && p[|p| - 1] == '\n' && PasswordRule(p[..|p| - 1]))
  }

  /** A scanning matcher for the password pattern. */
  method MatchPassword(p: string) returns (ok: bool)
    ensures ok <==> PasswordRegexMatches(p)
  {
    var body := if |p| > 0 && p[|p| - 1] == '\n' then p[..|p| - 1] else p;
    var lower, upper, digit, alnum := false, false, false, true;
    var i := 0;
    while i < |body|
      invariant 0 <= i <= |body|
      invariant alnum <==> forall j :: 0 <= j < i ==> IsAlnum(body[j])
      invariant lower <==> exists j :: 0 <= j < i && IsLower(body[j])
      invariant upper <==> exists j :: 0 <= j < i && IsUpper(body[j])
      invariant digit <==> exists j :: 0 <= j < i && IsDigit(body[j])
    {
      var c := body[i];
      alnum := alnum && IsAlnum(c);
      lower := lower || IsLower(c);
      upper := upper || IsUpper(c);
      digit := digit || IsDigit(c);
      i := i + 1;
    }
    ok := |body| >= 8 && alnum && lower && upper && digit;
    if body != p && !ok {
      // a trailing newline is not a letter or digit
      assert !IsAlnum(p[|p| - 1]);
    }
  }

  /** RegistrationForm.clean_password2. A missing first password (its own
      field failed to clean) is a KeyError. The mismatch check runs before the
      pattern; an accepted password is returned as given. */
  function CleanPassword2(password: Option<string>, password2: string): (r: Outcome<string>)
    ensures password.None? ==> r == Crashed(MissingPassword)
    ensures password.Some? && password.value != password2 ==> r == Refused(PasswordsDiffer)
    ensures r.Applied? <==> password == Some(password2) && PasswordRegexMatches(password2)
    ensures r.Applied? ==> r.value == password2
  {
    match password
    case None => Crashed(MissingPassword)
    case Some(p) =>
      if p != password2 then Refused(PasswordsDiffer)
      else if !PasswordRegexMatches(password2) then Refused(WeakPassword)
      else Applied(password2)
  }

  /** On a stripped value (which every cleaned CharField is) the accepted
      passwords are exactly the confirmed ones with at least eight characters,
      only ASCII letters and digits, and one lowercase, one uppercase and one
      digit among them. */
  lemma PasswordAcceptedIff(password: string, password2: string)
    requires Stripped(password2)
    ensures CleanPassword2(Some(password), password2).Applied? <==>
              && password == password2
              && |password2| >= 8
              && (forall i :: 0 <= i < |password2| ==> IsAlnum(password2[i]))
              && (exists i :: 0 <= i < |password2| && IsLower(password2[i]))
              && (exists i :: 0 <= i < |password2| && IsUpper(password2[i]))
              && (exists i :: 0 <= i < |password2| && IsDigit(password2[i]))
  {
    if |password2| > 0 {
      assert IsSpace('\n');
    }
  }

  /** RegistrationForm.clean_email: refused when any existing account has the
      address, otherwise returned unchanged. */
  function CleanEmail(email: string, users: map<UserId, User>): (r: Outcome<string>)
    ensures r.Applied? || r == Refused(EmailTaken)
    ensures r == Refused(EmailTaken) <==> exists u :: u in users && users[u].email == email
    ensures r.Applied? ==> r.value == email
  {
    if exists u :: u in users && users[u].email == email then Refused(EmailTaken)
    else Applied(email)
  }

  /** OrderForm: the user supplies the two dates and nothing else. */
  datatype OrderForm = OrderForm(rDate: Option<Date>, iDate: Option<Date>)

  predicate OrderFormValid(f: OrderForm) {
    f.rDate.Some? && f.iDate.Some?
  }

  /** EditAdminDetailsForm: room number, floor and note, nothing else. */
  datatype AdminDetailsForm = AdminDetailsForm(
    roomId: Option<int>,
    aukstas: Option<int>,
    ramybesValandos: string)

  const NoteMaxLength: int := 20

  /** Validates the admin details form against the instance it edits and
      returns the instance with the three whitelisted fields replaced; the
      model's clean runs on the result. */
  function ApplyAdminDetailsForm(f: AdminDetailsForm, d: AdminDetails): (r: Option<AdminDetails>)
    ensures r.Some? <==>
              && f.roomId.Some? && f.roomId.value >= 0
              && f.aukstas.Some? && f.aukstas.value >= 0
              && 0 < |f.ramybesValandos| <= NoteMaxLength
    ensures r.Some? ==> r.value.client == d.client
    ensures r.Some? ==> r.value.roomId == f.roomId.value && r.value.aukstas == f.aukstas.value
    ensures r.Some? ==> r.value.ramybesValandos == f.ramybesValandos
  {
    if f.roomId.None? || f.aukstas.None? then None
    else if !(0 < |f.ramybesValandos| <= NoteMaxLength) then None
    else
      var d' := d.(roomId := f.roomId.value, aukstas := f.aukstas.value,
                   ramybesValandos := f.ramybesValandos);
      if AdminDetailsClean(d').Some? then None else Some(d')
  }

  /** EditOrderForm: the status code and nothing else. `None` means the key
      was left out of the request: the field has a model default, so the
      instance keeps its stored status. The order is returned with only its
      status replaced. */
  function ApplyEditOrderForm(statusCode: Option<string>, o: Order): (r: Option<Order>)
    ensures r.Some? <==> statusCode.None? || statusCode.value in {"u", "r", "p", ""}
    ensures r.Some? && statusCode.Some? ==> StatusCode(r.value.status) == statusCode.value
    ensures statusCode.None? ==> r == Some(o)
    ensures r.Some? ==> r.value.(status := o.status) == o
  {
    match statusCode
    case None => Some(o)
    case Some(code) =>
      EnumCodesRoundTrip(o.status, Standart, code);
      match ParseStatus(code)
      case None => None
      case Some(st) => Some(o.(status := st))
  }

  /** ProfileForm: the six profile fields. The form re-declares the birth
      date as a required date field; the text fields are optional up to
      the model's lengths. */
  datatype ProfileForm = ProfileForm(
    name: string,
    lastname: string,
    birthDate: Option<Date>,
    address: string,
    city: string,
    country: string)

  function ApplyProfileForm(f: ProfileForm): (r: Option<Profile>)
    ensures r.Some? <==>
              && f.birthDate.Some?
              && |f.name| <= 15 && |f.lastname| <= 15 && |f.address| <= 50
              && |f.city| <= 20 && |f.country| <= 30
    ensures r.Some? ==> (Complete(r.value) <==>
              f.name != "" && f.lastname != "" && f.address != "" && f.city != "" && f.country != "")
    ensures r.Some? ==> r.value.name == f.name && r.value.lastname == f.lastname
    ensures r.Some? ==> r.value.birthDate == f.birthDate && r.value.address == f.address
    ensures r.Some? ==> r.value.city == f.city && r.value.country == f.country
  {
    if f.birthDate.None? then None
    else if |f.name| > 15 || |f.lastname| > 15 || |f.address| > 50 then None
    else if |f.city| > 20 || |f.country| > 30 then None
    else Some(Profile(f.name, f.lastname, f.birthDate, f.address, f.city, f.country))
  }
}

=== FILE: ledger.dfy ===
/** The balance ledger (mysite/viesbuciai/views.py): the lazy creation of a
    user's balance and the administrator's balance form. */
module Ledger {
  import opened Outcomes
  import opened Models
  import opened Totals

  /** The lookup-or-create every view repeats: an absent balance is created
      as 0 and returned, a present one is returned untouched. */
  function GetOrCreateBalance(s: Store, user: UserId): (r: (Store, int))
    ensures user in r.0.balances && r.1 == r.0.balances[user]
    ensures r.0 == s.(balances := r.0.balances)
    ensures r.0.balances.Keys == s.balances.Keys + {user}
    ensures forall u :: u in s.balances ==> r.0.balances[u] == s.balances[u]
    ensures user !in s.balances ==> r.1 == 0
  {
    if user in s.balances then (s, s.balances[user])
    else (s.(balances := s.balances[user := 0]), 0)
  }

  /** Asking twice is asking once. */
  lemma GetOrCreateIdempotent(s: Store, user: UserId)
    ensures var (s1, b1) := GetOrCreateBalance(s, user);
            GetOrCreateBalance(s1, user) == (s1, b1)
  {
  }

  /** Creating a balance for an existing user keeps the store valid and the
      ledger's total unchanged. */
  lemma GetOrCreatePreservesValid(s: Store, user: UserId)
    requires Valid(s) && user in s.users
    ensures Valid(GetOrCreateBalance(s, user).0)
    ensures LedgerTotal(GetOrCreateBalance(s, user).0) == LedgerTotal(s)
  {
    if user !in s.balances {
      SumBelowUpdate(s.balances, BalanceOf, s.nextUser, user, 0);
    }
  }

  /** A float as Python's float() may return it, in cents when finite. */
  datatype Float = Finite(cents: int) | PosInf | NegInf | NaN

  /** Python's `x < 0` on a float: every comparison with NaN is false. */
  predicate BelowZero(x: Float) {
    match x
    case Finite(c) => c < 0
    case NegInf => true
    case PosInf => false
    case NaN => false
  }

  /** The guard of add_user_balance_view as written: `not amount < 0`. */
  predicate AmountGuardAsWritten(x: Float) {
    !BelowZero(x)
  }

  /** The guard as intended: a finite amount that is not negative. */
  predicate AmountGuard(x: Float) {
    x.Finite? && x.cents >= 0
  }

  /** float("nan") and float("inf") parse, and the guard as written lets both
      through, so the balance would become NaN or infinity. */
  lemma AsWrittenGuardAdmitsNonNumbers()
    ensures AmountGuardAsWritten(NaN) && !AmountGuard(NaN)
    ensures AmountGuardAsWritten(PosInf) && !AmountGuard(PosInf)
  {
  }

  /** On finite amounts the two guards agree; the intended one only ever
      admits a non-negative number of cents. */
  lemma GuardsAgreeOnNumbers(x: Float)
    ensures x.Finite? ==> (AmountGuard(x) <==> AmountGuardAsWritten(x))
    ensures AmountGuard(x) ==> AmountGuardAsWritten(x)
    ensures AmountGuard(x) ==> x.Finite? && x.cents >= 0
  {
  }

  /** The amount field of the balance form. */
  datatype AmountField = NotPosted | Unparsable | Parsed(x: Float)

  datatype BalanceRequest = ShowForm | Submit(amount: AmountField)

  /** A server error can follow writes already committed, so both
      replies carry the store. */
  datatype BalanceReply = Done(store: Store) | Failed(store: Store, fault: Fault)

  /** The balance the form leaves behind: the amount when the guard admits
      it, otherwise what GetOrCreateBalance found. */
  function Overwritten(found: int, req: BalanceRequest): int {
    match req
    case Submit(Parsed(x)) => if AmountGuard(x) then x.cents else found
    case _ => found
  }

  /** add_user_balance_view: the target's balance is looked up or created as
      0 (a user that does not exist is an error), then a posted amount that
      the guard admits overwrites it. An unparsable amount is ignored; a
      missing one is a TypeError after the lazy creation was saved. */
  function SetBalance(s: Store, user: UserId, req: BalanceRequest): (r: BalanceReply)
    ensures user !in s.balances && user !in s.users <==> r == Failed(s, MissingUser)
    ensures r.Failed? && r.fault != MissingUser <==> req == Submit(NotPosted) && (user in s.balances || user in s.users)
    ensures r.store == s.(balances := r.store.balances)
    ensures req == Submit(NotPosted) && (user in s.balances || user in s.users) ==>
              r == Failed(GetOrCreateBalance(s, user).0, MissingAmount)
    ensures r.Done? ==> user in r.store.balances && r.store.balances.Keys == s.balances.Keys + {user}
    ensures r.Done? ==> forall u :: u in s.balances && u != user ==> r.store.balances[u] == s.balances[u]
    ensures r.Done? && req.Submit? && req.amount.Parsed? && AmountGuard(req.amount.x) ==>
              r.store.balances[user] == req.amount.x.cents
    ensures r.Done? && !(req.Submit? && req.amount.Parsed? && AmountGuard(req.amount.x)) ==>
              r.store.balances[user] == (if user in s.balances then s.balances[user] else 0)
  {
    if user !in s.balances && user !in s.users then Failed(s, MissingUser)
    else
      var (s1, found) := GetOrCreateBalance(s, user);
      if req == Submit(NotPosted) then Failed(s1, MissingAmount)
      else Done(s1.(balances := s1.balances[user := Overwritten(found, req)]))
  }

  /** The form sets, it does not add: once the amount is admitted, the
      previous balance has no influence on the result. */
  lemma SetBalanceIgnoresPrevious(s: Store, user: UserId, a: int, b: int, x: Float)
    requires user in s.users && AmountGuard(x)
    ensures SetBalance(s.(balances := s.balances[user := a]), user, Submit(Parsed(x))) ==
            SetBalance(s.(balances := s.balances[user := b]), user, Submit(Parsed(x)))
  {
    var sa := s.(balances := s.balances[user := a]);
    var sb := s.(balances := s.balances[user := b]);
    assert sa.balances[user := x.cents] == sb.balances[user := x.cents];
  }

  /** Writing a non-negative balance for an existing user keeps the store
      valid. */
  lemma BalanceWritePreservesValid(s: Store, user: UserId, v: int)
    requires Valid(s) && user in s.users && v >= 0
    ensures Valid(s.(balances := s.balances[user := v]))
  {
  }

  /** With the intended guard the ledger stays non-negative: every request
      of the form keeps the store valid, and the ledger's total moves by
      exactly the change to the one balance. */
  lemma SetBalancePreservesValid(s: Store, user: UserId, req: BalanceRequest)
    requires Valid(s)
    ensures Valid(SetBalance(s, user, req).store)
    ensures var r := SetBalance(s, user, req);
            r.Done? ==> LedgerTotal(r.store) ==
                        LedgerTotal(s) - (if user in s.balances then s.balances[user] else 0)
                        + r.store.balances[user]
  {
    var r := SetBalance(s, user, req);
    if user in s.users {
      var v := r.store.balances[user];
      assert v >= 0;
      assert r.store == s.(balances := s.balances[user := v]);
      BalanceWritePreservesValid(s, user, v);
      SumBelowUpdate(s.balances, BalanceOf, s.nextUser, user, v);
    }
  }

  /** What add_user_balance_view as written leaves behind: either what the
      corrected view does, or a non-number saved as the user's balance. The
      integer ledger cannot hold NaN or infinity, so that reply carries the
      store before the write together with the value written. */
  datatype WrittenReply =
    | AsCorrected(reply: BalanceReply)
    | NonNumberSaved(store: Store, user: UserId, amount: Float)

  /** add_user_balance_view with the guard `not amount < 0` as written. */
  function SetBalanceAsWritten(s: Store, user: UserId, req: BalanceRequest): (r: WrittenReply)
    ensures r.NonNumberSaved? <==>
              (user in s.balances || user in s.users) &&
              req.Submit? && req.amount.Parsed? && !req.amount.x.Finite? && AmountGuardAsWritten(req.amount.x)
    ensures r.NonNumberSaved? ==> r.user == user && r.amount == req.amount.x && !AmountGuard(r.amount)
  {
    if (user in s.balances || user in s.users) &&
       req.Submit? && req.amount.Parsed? && !req.amount.x.Finite? && AmountGuardAsWritten(req.amount.x)
    then NonNumberSaved(GetOrCreateBalance(s, user).0, user, req.amount.x)
    else AsCorrected(SetBalance(s, user, req))
  }

  /** As written, posting "inf" or "nan" for an existing user stores that
      value, where the corrected view keeps the balance it found. */
  lemma AsWrittenStoresNonNumbers(s: Store, user: UserId, x: Float)
    requires user in s.users
    requires x == PosInf || x == NaN
    ensures SetBalanceAsWritten(s, user, Submit(Parsed(x))) ==
            NonNumberSaved(GetOrCreateBalance(s, user).0, user, x)
    ensures SetBalance(s, user, Submit(Parsed(x))).store.balances[user] ==
            (if user in s.balances then s.balances[user] else 0)
  {
  }

  /** Every request that does not carry a non-number gets the same reply
      from both versions of the view. */
  lemma AsWrittenAgreesOnNumbers(s: Store, user: UserId, req: BalanceRequest)
    requires !(req.Submit? && req.amount.Parsed? && !req.amount.x.Finite?) || req == Submit(Parsed(NegInf))
    ensures SetBalanceAsWritten(s, user, req) == AsCorrected(SetBalance(s, user, req))
  {
  }
}

=== FILE: models.dfy ===
/** The records of the hotel application (mysite/viesbuciai/models.py) and the
    one store that holds them all, standing in for the database tables.

    Money is an integer number of cents and a date is an integer day number;
    identifiers are the tables' auto-incremented primary keys. */
module Models {
  import opened Outcomes

  type UserId = nat
  type HotelId = nat
  type OrderId = nat
  type DetailsId = nat
  type Date = int

  /** Order.STATUS. The field is declared blank, so the empty code is admitted
      alongside the three choices. */
  datatype Status = Ordered | Preparing | Ready | Unset

  const DefaultStatus: Status := Ordered

  function StatusCode(st: Status): string {
    match st
    case Ordered => "u"
    case Preparing => "r"
    case Ready => "p"
    case Unset => ""
  }

  /** Reads a submitted status code; None for a value outside the choices. */
  function ParseStatus(code: string): (r: Option<Status>)
    ensures r.Some? ==> StatusCode(r.value) == code
  {
    if code == "u" then Some(Ordered)
    else if code == "r" then Some(Preparing)
    else if code == "p" then Some(Ready)
    else if code == "" then Some(Unset)
    else None
  }

  /** Hotel.TYPES ('s' is spelled STANDART in the source). Blank is admitted. */
  datatype HotelType = Vip | Gold | Premium | Standart | Untyped

  const DefaultHotelType: HotelType := Standart

  function HotelTypeCode(t: HotelType): string {
    match t
    case Vip => "v"
    case Gold => "g"
    case Premium => "p"
    case Standart => "s"
    case Untyped => ""
  }

  function ParseHotelType(code: string): (r: Option<HotelType>)
    ensures r.Some? ==> HotelTypeCode(r.value) == code
  {
    if code == "v" then Some(Vip)
    else if code == "g" then Some(Gold)
    else if code == "p" then Some(Premium)
    else if code == "s" then Some(Standart)
    else if code == "" then Some(Untyped)
    else None
  }

  /** Every code has exactly one reading: parsing inverts printing on each
      enumeration, so a stored status or type is always one of its choices. */
  lemma EnumCodesRoundTrip(st: Status, t: HotelType, code: string)
    ensures ParseStatus(StatusCode(st)) == Some(st)
    ensures ParseHotelType(HotelTypeCode(t)) == Some(t)
    ensures ParseStatus(code).Some? <==> code in {"u", "r", "p", ""}
    ensures ParseHotelType(code).Some? <==> code in {"v", "g", "p", "s", ""}
  {
  }

  /** Hotel.STARS choices, or the blank value. */
  predicate StarsAllowed(stars: string) {
    stars in {"1", "2", "3", "4", "5", ""}
  }

  /** The declared default of Hotel.stars; it is not one of the choices. */
  const DefaultStars: string := "s"

  /** The MaxValueValidator on Hotel.quantity. */
  const MaxQuantity: int := 4

  datatype Hotel = Hotel(
    name: string,
    hotelType: HotelType,
    stars: string,
    description: string,
    address: string,
    price: int,         // per night, in cents
    quantity: int,      // most guests per room
    availability: int)  // rooms left to book

  /** The error Hotel.clean raises, if any. */
  datatype CleanError = NegativePrice | NegativeAvailability | NegativeRoom | NegativeFloor

  /** Hotel.clean: price is checked first, availability only when the price
      is fine. */
  function HotelClean(h: Hotel): (r: Option<CleanError>)
    ensures r == None <==> h.price >= 0 && h.availability >= 0
    ensures r == Some(NegativePrice) <==> h.price < 0
    ensures r == Some(NegativeAvailability) <==> h.price >= 0 && h.availability < 0
  {
    if h.price < 0 then Some(NegativePrice)
    else if h.availability < 0 then Some(NegativeAvailability)
    else None
  }

  /** A profile; the empty string stands for a blank or null text field. */
  datatype Profile = Profile(
    name: string,
    lastname: string,
    birthDate: Option<Date>,
    address: string,
    city: string,
    country: string)

  /** The profile the post_save signal creates for a new user. */
  const EmptyProfile: Profile := Profile("", "", None, "", "", "")

  /** The gate of the main page, the hotel list and the filter page: all six
      fields are filled in. */
  predicate Complete(p: Profile)
    ensures p == EmptyProfile ==> !Complete(p)
  {
    p.name != "" && p.lastname != "" && p.address != "" &&
    p.birthDate.Some? && p.city != "" && p.country != ""
  }

  datatype AdminDetails = AdminDetails(
    client: Option<UserId>,
    roomId: int,
    aukstas: int,               // floor
    ramybesValandos: string)    // quiet hours / status note

  /** The note a freshly created AdminDetails carries ("awaiting confirmation"). */
  const AwaitingConfirmation: string := "Laukiama patvirtinimo"

  /** The placeholder Order.save attaches to an order without admin details. */
  function Placeholder(client: Option<UserId>): (d: AdminDetails)
    ensures d.client == client && d.roomId == 0 && d.aukstas == 0
    ensures d.ramybesValandos == AwaitingConfirmation
  {
    AdminDetails(client, 0, 0, AwaitingConfirmation)
  }

  /** AdminDetails.clean: the room number is checked first, the floor only
      when the room number is fine. */
  function AdminDetailsClean(d: AdminDetails): (r: Option<CleanError>)
    ensures r == None <==> d.roomId >= 0 && d.aukstas >= 0
    ensures r == Some(NegativeRoom) <==> d.roomId < 0
    ensures r == Some(NegativeFloor) <==> d.roomId >= 0 && d.aukstas < 0
  {
    if d.roomId < 0 then Some(NegativeRoom)
    else if d.aukstas < 0 then Some(NegativeFloor)
    else None
  }

  /** An order; client and hotel are nullable references (SET_NULL). */
  datatype Order = Order(
    client: Option<UserId>,
    orderDate: Option<Date>,
    rDate: Option<Date>,        // check-in
    iDate: Option<Date>,        // check-out
    hotel: Option<HotelId>,
    status: Status,
    adminDetails: Option<DetailsId>)

  /** An account of the authentication subsystem, as far as this core reads it. */
  datatype User = User(username: string, email: string)

  /** The database. The next* counters are the auto-increment sequences. */
  datatype Store = Store(
    users: map<UserId, User>,
    profiles: map<UserId, Profile>,   // keyed by the owning user (one-to-one)
    balances: map<UserId, int>,       // in cents
    hotels: map<HotelId, Hotel>,
    orders: map<OrderId, Order>,
    details: map<DetailsId, AdminDetails>,
    nextUser: nat,
    nextHotel: nat,
    nextOrder: nat,
    nextDetails: nat)

  /** The invariant every modelled request preserves. */
  ghost predicate Valid(s: Store) {
    && (forall u :: u in s.users ==> u < s.nextUser)
    && (forall h :: h in s.hotels ==> h < s.nextHotel)
    && (forall o :: o in s.orders ==> o < s.nextOrder)
    && (forall d :: d in s.details ==> d < s.nextDetails)
    && s.profiles.Keys == s.users.Keys
    && s.balances.Keys <= s.users.Keys
    && (forall u :: u in s.balances ==> s.balances[u] >= 0)
    && (forall o :: o in s.orders ==> Linked(s, s.orders[o]))
    && (forall o, o' :: o in s.orders && o' in s.orders && o != o' ==>
          s.orders[o].adminDetails != s.orders[o'].adminDetails)
  }

  /** An order's references resolve: its admin details exist and its hotel,
      when set, exists. */
  ghost predicate Linked(s: Store, o: Order) {
    && o.adminDetails.Some? && o.adminDetails.value in s.details
    && (o.hotel.Some? ==> o.hotel.value in s.hotels)
  }

  /** Order.save: store the order under its key; when no admin details are
      linked, create the placeholder under a fresh key and link it. */
  function SaveOrder(s: Store, id: OrderId, o: Order): (r: Store)
    ensures id in r.orders && r.orders[id].adminDetails.Some?
    ensures r.orders == s.orders[id := r.orders[id]]
    ensures r.orders[id] == o.(adminDetails := r.orders[id].adminDetails)
    ensures o.adminDetails.Some? ==> r.orders[id] == o && r.details == s.details
    ensures o.adminDetails.None? ==>
              && r.orders[id].adminDetails == Some(s.nextDetails)
              && r.details == s.details[s.nextDetails := Placeholder(o.client)]
              && r.nextDetails == s.nextDetails + 1
    ensures o.adminDetails.Some? ==> r.nextDetails == s.nextDetails
    ensures r.users == s.users && r.profiles == s.profiles && r.balances == s.balances
    ensures r.hotels == s.hotels && r.nextUser == s.nextUser && r.nextHotel == s.nextHotel
    ensures r.nextOrder == if id < s.nextOrder then s.nextOrder else id + 1
  {
    var nextOrder := if id < s.nextOrder then s.nextOrder else id + 1;
    if o.adminDetails.Some? then
      s.(orders := s.orders[id := o], nextOrder := nextOrder)
    else
      var d := s.nextDetails;
      s.(orders := s.orders[id := o.(adminDetails := Some(d))],
         details := s.details[d := Placeholder(o.client)],
         nextOrder := nextOrder,
         nextDetails := d + 1)
  }

  /** The second save Order.save performs after attaching the placeholder
      finds details linked and writes nothing new. */
  lemma SaveOrderIdempotent(s: Store, id: OrderId, o: Order)
    ensures var r := SaveOrder(s, id, o); SaveOrder(r, id, r.orders[id]) == r
  {
  }

  /** Saving a new order, or re-saving a stored one with its own details,
      keeps the store valid. */
  lemma SaveOrderPreservesValid(s: Store, id: OrderId, o: Order)
    requires Valid(s)
    requires o.hotel.Some? ==> o.hotel.value in s.hotels
    requires o.adminDetails.Some? ==>
               id in s.orders && s.orders[id].adminDetails == o.adminDetails
    ensures Valid(SaveOrder(s, id, o))
  {
    var r := SaveOrder(s, id, o);
    forall k | k in r.orders
      ensures Linked(r, r.orders[k])
    {
      if k != id {
        assert r.orders[k] == s.orders[k] && Linked(s, s.orders[k]);
      }
    }
    forall k, k' | k in r.orders && k' in r.orders && k != k'
      ensures r.orders[k].adminDetails != r.orders[k'].adminDetails
    {
      if k == id {
        assert Linked(s, s.orders[k']);
      } else if k' == id {
        assert Linked(s, s.orders[k]);
      }
    }
  }
}

=== FILE: outcomes.dfy ===
/** Result types shared by every request handler of the hotel application.

    A request either completes (possibly redirecting), is turned away by a
    business rule or a form check with nothing written, or ends in an
    exception the view does not catch (a server error). */
module Outcomes {

  datatype Option<+T> = None | Some(value: T)

  /** Why a request was turned away with nothing written: a silent redirect
      or a re-rendered form. */
  datatype Refusal =
    | InvalidForm          // a form did not validate
    | StaleDate            // a reservation date lies before today
    | EmptyStay            // check-out is not after check-in
    | InsufficientBalance  // the stay costs more than the balance
    | HotelInUse           // an order still references the hotel
    | EmailTaken           // another account already has this email
    | PasswordsDiffer      // the two password fields disagree
    | WeakPassword         // the password fails the complexity rule

  /** An exception the view does not catch. */
  datatype Fault =
    | MissingUser          // User.objects.get found no row
    | MissingProfile       // Profile.objects.get found no row
    | MissingBalance       // Balance.objects.get found no row
    | MissingHotel         // Hotel.objects.get found no row
    | MissingOrder         // Order.objects.get found no row
    | MissingAdminDetails  // AdminDetails.objects.get found no row
    | MissingAmount        // float(None): the amount field was not posted
    | MalformedQuantity    // a non-numeric quantity filter on an integer column
    | MissingPassword      // the first password field did not clean, so its key is absent
    | NoneCompared         // Hotel.clean compared an unset price or availability with 0

  /** The outcome of a request whose refusals and faults write nothing. */
  datatype Outcome<+T> = Applied(value: T) | Refused(why: Refusal) | Crashed(fault: Fault)
}

=== FILE: reservation.dfy ===
/** The reservation workflow, create_order in mysite/viesbuciai/views.py:
    validate the dates, debit the stay from the balance, take one room off
    the hotel's availability and save the order with its admin details. */
module Reservation {
  import opened Outcomes
  import opened Models
  import opened Forms
  import opened Totals
  import opened Ledger

  datatype Placement = Placement(store: Store, order: OrderId)

  /** The order create_order builds from the two submitted dates; hotel,
      client, status and order date come from the view and the defaults. */
  function NewOrder(user: UserId, hotelId: HotelId, rDate: Date, iDate: Date, today: Date): Order {
    Order(Some(user), Some(today), Some(rDate), Some(iDate), Some(hotelId), DefaultStatus, None)
  }

  /** The submitted dates are both today or later. */
  predicate Current(form: OrderForm, today: Date)
    requires OrderFormValid(form)
  {
    form.rDate.value >= today && form.iDate.value >= today
  }

  function Nights(form: OrderForm): int
    requires OrderFormValid(form)
  {
    form.iDate.value - form.rDate.value
  }

  /** Every check before the balance comparison passes. */
  predicate Admissible(s: Store, user: UserId, hotelId: HotelId, form: OrderForm, today: Date) {
    && OrderFormValid(form) && Current(form, today)
    && user in s.balances && hotelId in s.hotels && user in s.profiles
    && Nights(form) > 0
  }

  function Cost(s: Store, hotelId: HotelId, form: OrderForm): int
    requires hotelId in s.hotels && OrderFormValid(form)
  {
    Nights(form) * s.hotels[hotelId].price
  }

  /** The writes of a reservation that passed every check. */
  function Book(s: Store, user: UserId, hotelId: HotelId, form: OrderForm, today: Date): Store
    requires Admissible(s, user, hotelId, form, today)
  {
    var h := s.hotels[hotelId];
    var debited := s.(balances := s.balances[user := s.balances[user] - Cost(s, hotelId, form)],
                      hotels := s.hotels[hotelId := h.(availability := h.availability - 1)]);
    SaveOrder(debited, s.nextOrder,
              NewOrder(user, hotelId, form.rDate.value, form.iDate.value, today))
  }

  /** create_order, in the source's order of checks: the form, the dates
      against today, the balance, hotel and profile lookups (each an uncaught
      DoesNotExist), the length of the stay, and the balance against the
      cost. Every refusal and fault writes nothing. */
  function CreateOrder(s: Store, user: UserId, hotelId: HotelId, form: OrderForm, today: Date)
    : (r: Outcome<Placement>)
    ensures r == Refused(InvalidForm) <==> !OrderFormValid(form)
    ensures r == Refused(StaleDate) <==> OrderFormValid(form) && !Current(form, today)
    ensures r.Crashed? <==>
              OrderFormValid(form) && Current(form, today) &&
              (user !in s.balances || hotelId !in s.hotels || user !in s.profiles)
    ensures r == Crashed(MissingBalance) <==>
              OrderFormValid(form) && Current(form, today) && user !in s.balances
    ensures r == Crashed(MissingHotel) <==>
              OrderFormValid(form) && Current(form, today) && user in s.balances && hotelId !in s.hotels
    ensures r == Crashed(MissingProfile) <==>
              OrderFormValid(form) && Current(form, today) && user in s.balances && hotelId in s.hotels &&
              user !in s.profiles
    ensures r == Refused(EmptyStay) <==>
              OrderFormValid(form) && Current(form, today) &&
              user in s.balances && hotelId in s.hotels && user in s.profiles && Nights(form) <= 0
    ensures r == Refused(InsufficientBalance) <==>
              Admissible(s, user, hotelId, form, today) && s.balances[user] < Cost(s, hotelId, form)
    ensures r.Applied? <==>
              Admissible(s, user, hotelId, form, today) && s.balances[user] >= Cost(s, hotelId, form)
    ensures r.Applied? ==> r.value.order == s.nextOrder
  {
    if !OrderFormValid(form) then Refused(InvalidForm)
    else if !Current(form, today) then Refused(StaleDate)
    else if user !in s.balances then Crashed(MissingBalance)
    else if hotelId !in s.hotels then Crashed(MissingHotel)
    else if user !in s.profiles then Crashed(MissingProfile)
    else if Nights(form) <= 0 then Refused(EmptyStay)
    else if s.balances[user] >= Cost(s, hotelId, form) then
      Applied(Placement(Book(s, user, hotelId, form, today), s.nextOrder))
    else Refused(InsufficientBalance)
  }

  /** The exact delta of a placed order: the user's balance drops by the cost
      and no other balance moves; the hotel loses one room (with no floor)
      and no other hotel changes; one order is stored under the next key with
      the submitted dates, the hotel, the user as client and status 'u',
      linked to a new placeholder AdminDetails for the same client; the
      order and details counters advance by one and the others stay. */
  lemma PlacedOrderDelta(s: Store, user: UserId, hotelId: HotelId, form: OrderForm, today: Date)
    requires CreateOrder(s, user, hotelId, form, today).Applied?
    ensures var p := CreateOrder(s, user, hotelId, form, today).value;
            var h := s.hotels[hotelId];
            && p.store.balances == s.balances[user := s.balances[user] - Nights(form) * h.price]
            && p.store.hotels == s.hotels[hotelId := h.(availability := h.availability - 1)]
            && p.store.orders == s.orders[p.order := Order(Some(user), Some(today), form.rDate,
                                 form.iDate, Some(hotelId), Ordered, Some(s.nextDetails))]
            && p.store.details == s.details[s.nextDetails := Placeholder(Some(user))]
            && p.store.users == s.users && p.store.profiles == s.profiles
            && p.store.nextOrder == s.nextOrder + 1 && p.store.nextDetails == s.nextDetails + 1
            && p.store.nextUser == s.nextUser && p.store.nextHotel == s.nextHotel
  {
  }

  /** A placed order keeps the store valid; the ledger loses exactly the
      cost, the catalog exactly one room, and exactly one order and one
      admin details record are added. */
  lemma PlacedOrderTotals(s: Store, user: UserId, hotelId: HotelId, form: OrderForm, today: Date)
    requires Valid(s)
    requires CreateOrder(s, user, hotelId, form, today).Applied?
    ensures var p := CreateOrder(s, user, hotelId, form, today).value;
            && Valid(p.store)
            && LedgerTotal(p.store) == LedgerTotal(s) - Cost(s, hotelId, form)
            && RoomsLeft(p.store) == RoomsLeft(s) - 1
            && |p.store.orders| == |s.orders| + 1
            && |p.store.details| == |s.details| + 1
  {
    var p := CreateOrder(s, user, hotelId, form, today).value;
    var h := s.hotels[hotelId];
    var cost := Cost(s, hotelId, form);
    var debited := s.(balances := s.balances[user := s.balances[user] - cost],
                      hotels := s.hotels[hotelId := h.(availability := h.availability - 1)]);
    assert Valid(debited) by {
      forall o | o in debited.orders
        ensures Linked(debited, debited.orders[o])
      {
        assert Linked(s, s.orders[o]);
      }
    }
    var o := NewOrder(user, hotelId, form.rDate.value, form.iDate.value, today);
    SaveOrderPreservesValid(debited, s.nextOrder, o);
    assert p.store == SaveOrder(debited, s.nextOrder, o);
    SumBelowUpdate(s.balances, BalanceOf, s.nextUser, user, s.balances[user] - cost);
    SumBelowUpdate(s.hotels, Availability, s.nextHotel, hotelId, h.(availability := h.availability - 1));
    assert s.nextOrder !in s.orders && s.nextDetails !in s.details;
  }

  /** A one-user, one-hotel store used by the worked examples below. */
  function Sample(profile: Profile, balance: int, price: int, availability: int): Store {
    Store(map[0 := User("jonas", "jonas@example.com")], map[0 := profile], map[0 := balance],
          map[0 := Hotel("Neringa", Standart, "3", "Super hotel", "Adresas", price, 2, availability)],
          map[], map[], 1, 1, 0, 0)
  }

  const Filled: Profile := Profile("Jonas", "Jonaitis", Some(0), "Gedimino 1", "Vilnius", "Lietuva")

  /** Three nights at 100.00 cost 300.00, more than a balance of 250.00: the
      reservation is refused and nothing is written. */
  lemma ThreeNightsExceedBalance()
    ensures CreateOrder(Sample(Filled, 25000, 10000, 5), 0, 0, OrderForm(Some(10), Some(13)), 10)
            == Refused(InsufficientBalance)
  {
  }

  /** Two nights at 100.00 from a balance of 250.00 leave 50.00, one room
      fewer and a stored order with status 'u'. */
  lemma TwoNightsLeaveFifty()
    ensures var r := CreateOrder(Sample(Filled, 25000, 10000, 5), 0, 0, OrderForm(Some(10), Some(12)), 10);
            && r.Applied? && r.value.order == 0
            && r.value.store.balances[0] == 5000
            && r.value.store.hotels[0].availability == 4
            && r.value.store.orders[0].status == Ordered
  {
  }

  /** Nothing stops a booking when no room is left: availability goes below
      zero. Nor does create_order check that the profile is complete. */
  lemma NoAvailabilityFloorNorProfileGate()
    ensures var r := CreateOrder(Sample(EmptyProfile, 25000, 10000, 0), 0, 0, OrderForm(Some(10), Some(11)), 10);
            r.Applied? && r.value.store.hotels[0].availability == -1
  {
  }
}

=== FILE: text.dfy ===
/** Character-level helpers on strings: ASCII case folding and the address
    normalisation the authentication framework applies to a user's email. */
module Text {
  import opened Outcomes

  function Lower(c: char): char {
    if 'A' <= c <= 'Z' then (c as int - 'A' as int + 'a' as int) as char else c
  }

  function Lowered(s: string): (r: string)
    ensures |r| == |s|
  {
    if s == [] then [] else [Lower(s[0])] + Lowered(s[1..])
  }

  lemma {:induction false} LoweredAt(s: string, i: nat)
    requires i < |s|
    ensures Lowered(s)[i] == Lower(s[i])
  {
    if i > 0 {
      LoweredAt(s[1..], i - 1);
    }
  }

  /** Lowering twice is lowering once, and lowering never creates or removes
      an '@'. */
  lemma LoweredIdempotent(s: string)
    ensures Lowered(Lowered(s)) == Lowered(s)
    ensures forall i :: 0 <= i < |s| ==> (Lowered(s)[i] == '@' <==> s[i] == '@')
  {
    forall i | 0 <= i < |s|
      ensures Lowered(Lowered(s))[i] == Lowered(s)[i]
      ensures Lowered(s)[i] == '@' <==> s[i] == '@'
    {
      LoweredAt(s, i);
      LoweredAt(Lowered(s), i);
    }
  }

  /** The position of the last '@', as `rsplit("@", 1)` finds it. */
  function LastAt(s: string): (r: Option<nat>)
    ensures r.Some? ==> r.value < |s| && s[r.value] == '@'
    ensures r.Some? ==> forall j :: r.value < j < |s| ==> s[j] != '@'
    ensures r.None? ==> forall j :: 0 <= j < |s| ==> s[j] != '@'
  {
    if s == [] then None
    else if s[|s| - 1] == '@' then Some(|s| - 1)
    else LastAt(s[..|s| - 1])
  }

  /** The last '@' is the one no other '@' follows. */
  lemma {:induction false} LastAtUnique(s: string, k: nat)
    requires k < |s| && s[k] == '@'
    requires forall j :: k < j < |s| ==> s[j] != '@'
    ensures LastAt(s) == Some(k)
  {
    if k < |s| - 1 {
      LastAtUnique(s[..|s| - 1], k);
    }
  }

  /** BaseUserManager.normalize_email: the part after the last '@' is
      lowercased; an address without '@' is kept as it is. */
  function NormalizeEmail(email: string): (r: string)
    ensures |r| == |email|
    ensures LastAt(email).None? ==> r == email
    ensures LastAt(email).Some? ==> r[..LastAt(email).value + 1] == email[..LastAt(email).value + 1]
    ensures LastAt(email).Some? ==> r[LastAt(email).value + 1..] == Lowered(email[LastAt(email).value + 1..])
  {
    match LastAt(email)
    case None => email
    case Some(i) => email[..i + 1] + Lowered(email[i + 1..])
  }

  /** A normalised address is its own normal form. */
  lemma NormalizeEmailIdempotent(email: string)
    ensures NormalizeEmail(NormalizeEmail(email)) == NormalizeEmail(email)
  {
    var n := NormalizeEmail(email);
    match LastAt(email)
    case None =>
    case Some(i) =>
      var domain := email[i + 1..];
      LoweredIdempotent(domain);
      assert n == email[..i + 1] + Lowered(domain);
      forall j | i < j < |n|
        ensures n[j] != '@'
      {
        assert n[j] == Lowered(domain)[j - i - 1];
      }
      LastAtUnique(n, i);
      assert n[..i + 1] == email[..i + 1];
      assert n[i + 1..] == Lowered(domain);
  }

  /** The rewrite is real: in "a@Example.com" the domain's capital is
      folded, so the stored address differs from the one typed. */
  lemma MixedCaseDomainIsRewritten()
    ensures NormalizeEmail("a@Example.com")[2] == 'e'
    ensures NormalizeEmail("a@Example.com") != "a@Example.com"
  {
    var e := "a@Example.com";
    LastAtUnique(e, 1);
    LoweredAt(e[2..], 0);
    assert NormalizeEmail(e)[2] == Lowered(e[2..])[0];
  }
}

=== FILE: totals.dfy ===
/** Sums over the tables, used to state what a request does to the money in
    the ledger and the rooms in the catalog as a whole. */
module Totals {
  import opened Models

  /** The value one key contributes: f of its entry, or 0 when absent. */
  function Entry<V>(m: map<nat, V>, f: V -> int, k: nat): int {
    if k in m then f(m[k]) else 0
  }

  /** The sum of f over the entries of m whose key lies below n. */
  function SumBelow<V>(m: map<nat, V>, f: V -> int, n: nat): int {
    if n == 0 then 0 else SumBelow(m, f, n - 1) + Entry(m, f, n - 1)
  }

  /** The sum below n only reads the keys below n. */
  lemma {:induction false} SumBelowFrame<V>(m: map<nat, V>, m': map<nat, V>, f: V -> int, n: nat)
    requires forall k :: 0 <= k < n ==> Entry(m, f, k) == Entry(m', f, k)
    ensures SumBelow(m, f, n) == SumBelow(m', f, n)
  {
    if n > 0 {
      SumBelowFrame(m, m', f, n - 1);
    }
  }

  /** Replacing one entry below the bound shifts the sum by the difference. */
  lemma {:induction false} SumBelowUpdate<V>(m: map<nat, V>, f: V -> int, n: nat, k: nat, v: V)
    requires k < n
    ensures SumBelow(m[k := v], f, n) == SumBelow(m, f, n) - Entry(m, f, k) + f(v)
  {
    if k == n - 1 {
      SumBelowFrame(m[k := v], m, f, n - 1);
    } else {
      SumBelowUpdate(m, f, n - 1, k, v);
    }
  }

  /** Removing one entry below the bound takes its contribution away. */
  lemma {:induction false} SumBelowRemove<V>(m: map<nat, V>, f: V -> int, n: nat, k: nat)
    requires k < n
    ensures SumBelow(m - {k}, f, n) == SumBelow(m, f, n) - Entry(m, f, k)
  {
    if k == n - 1 {
      SumBelowFrame(m - {k}, m, f, n - 1);
    } else {
      SumBelowRemove(m, f, n - 1, k);
    }
  }

  /** What one balance row contributes to the ledger: its amount. */
  function BalanceOf(b: int): int { b }

  /** All money held in the ledger. */
  function LedgerTotal(s: Store): int {
    SumBelow(s.balances, BalanceOf, s.nextUser)
  }

  /** What one hotel contributes to the catalog: its free rooms. */
  function Availability(h: Hotel): int { h.availability }

  /** All rooms left to book across the catalog. */
  function RoomsLeft(s: Store): int {
    SumBelow(s.hotels, Availability, s.nextHotel)
  }
}
